=== FILE: README.md ===
# Banking demo: bill payment logic in Dafny

A model of the decision logic inside a SwiftUI bill-payment demo app. The app lists bills against an account balance. A user picks a payment amount on a circular dial and goes through a confirm → processing → success flow. The model covers these parts:

- **Circular amount picker** (`CircularPicker`). It turns the drag angle into a dial angle, computes the minimum-due angle and applies the dead-zone snap. The snap depends on which half of the dial the current amount is in. It then maps the angle back to an amount and clamps it.
- **Bill list** (`BillList`). This covers the paid/unpaid filter, ordering by due date, the total still owed, paying a bill and the tap handler that selects a bill. Both generations of the list screen are covered. They differ only in the name of the paid flag.
- **Payment confirmation screen** (`PaymentFlow`). This is the `isProcessing`/`showSuccess` state machine with its cancel and done gating, and the screen's funds test.
- **Confirmation content** (`PaymentContent`). This covers both versions of the content view: the initial amount, the account's funds test, text edits of the amount, the balance-after row, the warning and the confirm button.
- **Amount picker screen** (`AmountPicker`). This covers the initial selection, the minimum-due gate, the dial's configuration and a sequence of drags.
- **Sort menu** (`SortPicker`). This covers option selection and direction toggling.
- **Bill construction** (`Bills`). This is the initialiser's defaults and the sample bills. `Scenarios` checks concrete values against the sample bills.

Amounts (`Decimal` in the app) are exact `real`s. Dates are integer seconds, and only their order and offsets are used. UUIDs are integers supplied by the caller. The app's mutable bindings become values: the list's bills and balance are a `Session`, and every operation returns the new value.

Some of the code's behaviour is easy to misread. In each of these cases the model follows the code:
- Only one sort exists in the code: by due date. The sort menu changes its own state, but no comparator for payee, amount, category or paid status exists.
- `payBill` debits the full amount of the bill it is handed. It does not debit the amount chosen on the confirmation screen. It debits the list's balance, not the account selected on that screen.
- `payBill` does not check the paid flag. Paying the same bill again debits it again (`BillList.PayingTwiceDebitsTwice`). It is not a no-op. Only the tap handler keeps paid bills from being selected.
- The older content view receives the parent's `hasInsufficientFunds` flag but never reads it. Its warning and its confirm button use its own test against the selected account.
- The screen tests funds against the list's balance, while its content view tests the selected account. The two start equal (5432.50), but `payBill` lowers only the list's balance. After a payment the tests disagree exactly when the payment carried the list balance across the next bill's amount (`PaymentContent.GatesDisagreeAfterPayment`). The sample bills cannot do this: the list balance never falls below 5432.50 − 2382.49 = 3050.01, and no sample bill exceeds 1850. Other data can (`Scenarios.GatesDivergeAfterPayment` uses a 5400.00 bill).
- The confirmation screen is presented as a full-screen cover, which a swipe cannot dismiss. Its `interactiveDismissDisabled(showSuccess)` has no effect there, so a swipe changes nothing in any state.
- The picker never rejects a malformed range. It clamps with `min(max(x, lo), hi)`, so an inverted range yields its maximum.
- The electricity bill's default minimum due is 142.50 × 0.125 = 17.8125. The app displays this rounded to 17.81.

## Model

| member | source | states |
|---|---|---|
| CircularPicker.NormalizeAngle | Banking/AmountPicker/CircularAmountPicker.swift:163-168 | the dial angle is the atan2 angle plus a quarter turn, plus one full turn when negative; an atan2 angle in [-180, 180] lands in [0, 360) |
| CircularPicker.Progress | Banking/AmountPicker/CircularAmountPicker.swift:37-47 | 0 on an empty or inverted range; otherwise the fraction p with min + p·span = amount, in [0, 1] for amounts in range |
| CircularPicker.ProgressAngle | Banking/AmountPicker/CircularAmountPicker.swift:49-52 | the angle of an amount is inverted by the angle-to-amount map (round trip), and amounts in range map into [0, 360] |
| CircularPicker.MinimumDueProgress | Banking/AmountPicker/CircularAmountPicker.swift:55-61 | the marker's fraction is the one whose amount is the minimum due, in [0, 1] for a well-formed range |
| CircularPicker.MinimumDueAngle | Banking/AmountPicker/CircularAmountPicker.swift:170-173 | 0 when the range is empty; otherwise the angle whose amount is exactly the minimum due, within one turn |
| CircularPicker.AmountAtAngle | Banking/AmountPicker/CircularAmountPicker.swift:190-193 | angles in [0, 360] give amounts in range; the amount is below the maximum exactly when the angle is below a full turn |
| CircularPicker.InDeadZone | Banking/AmountPicker/CircularAmountPicker.swift:176 | an angle is outside the dead zone exactly when it lies on the selectable arc from the minimum-due angle to 355 |
| CircularPicker.SnapAngle | Banking/AmountPicker/CircularAmountPicker.swift:175-188 | outside the dead zone the angle is kept; inside it becomes the minimum-due angle when the current angle is below 180 and a full turn otherwise |
| CircularPicker.Clamp | Banking/AmountPicker/CircularAmountPicker.swift:195 | result within [lo, hi] when lo ≤ hi, identity on values already there, hi when the bounds are inverted |
| CircularPicker.UpdateAmount | Banking/AmountPicker/CircularAmountPicker.swift:158-196 | the new amount lies in [min, max]; on a well-formed range it is never below the minimum due; an empty range always yields its minimum |
| CircularPicker.DeadZoneSnapsToMinimumDue | Banking/AmountPicker/CircularAmountPicker.swift:176-183 | a dead-zone drag while the current angle is below 180 yields exactly the minimum due |
| CircularPicker.DeadZoneSnapsToMaximum | Banking/AmountPicker/CircularAmountPicker.swift:184-187 | a dead-zone drag while the current angle is 180 or more yields exactly the maximum |
| CircularPicker.DeadZoneYieldsAnEdge | Banking/AmountPicker/CircularAmountPicker.swift:176-195 | a dead-zone drag yields the minimum due or the maximum, nothing strictly inside |
| CircularPicker.OutsideDeadZoneFollowsAngle | Banking/AmountPicker/CircularAmountPicker.swift:176-193 | outside the dead zone no snap happens: the amount is the angle's share of the range, and at least the minimum due |
| CircularPicker.InteriorAngleGivesInteriorAmount | Banking/AmountPicker/CircularAmountPicker.swift:176-193 | angles strictly between the minimum-due angle and 355 give amounts strictly between the minimum due and the maximum |
| CircularPicker.OnlyTheCurrentHalfMatters | Banking/AmountPicker/CircularAmountPicker.swift:179-188 | the previous amount matters only through whether its angle is below 180 |
| CircularPicker.DragToCurrentAngleKeepsAmount | Banking/AmountPicker/CircularAmountPicker.swift:158-196 | dragging to the handle's own angle (outside the dead zone) leaves the amount unchanged |
| Bills.MakeBill | Banking/Bill.swift:33-49 | fields stored as given; a missing minimum due becomes one eighth of the amount, within [0, amount] for non-negative amounts; paid defaults to false |
| Bills.SampleBills | Banking/Bill.swift:87-125 | six bills with the given ids, all due after now, each with the default one-eighth minimum due |
| BillList.Shown | Banking/Landing/BillListView.swift:28 | with paid bills shown every bill is listed; otherwise a bill is listed exactly when it is unpaid |
| BillList.FilterShown | Banking/Landing/BillListView.swift:27-29 | only bills passing the filter come out; with paid bills shown the input comes out whole; nothing comes out when no bill passes |
| BillList.FilterShownCounts | Banking/Landing/BillListView.swift:27-29 | each passing bill is kept exactly as often as it occurs in the input, and every other bill is dropped |
| BillList.SortByDueDate | Banking/Landing/BillListView.swift:30-32 | the result is non-decreasing by due date and a permutation of the input (no stability promised) |
| BillList.FilteredBills | Banking/Landing/BillListView.swift:25-33 | ordered by due date; as a multiset exactly the bills the filter passes; a permutation of all bills when paid bills are shown; no paid bill when they are hidden |
| BillList.UnpaidTotal | Banking/Landing/BillListView.swift:36-44 | the left-to-right total equals the sum of amounts over the unpaid bills, and is 0 when all are paid |
| BillList.AmountSumPermutation | Banking/Landing/BillListView.swift:41-43 | the sum of amounts does not depend on the order of the bills |
| BillList.UnpaidTotalMatchesShownList | Banking/BillListView.swift:25-44 | the unpaid total equals the sum over the list shown with paid bills hidden |
| BillList.FirstIndexOf | Banking/Landing/BillListView.swift:93 | finds the first bill with the id, or reports that no bill has it |
| BillList.PayBill | Banking/Landing/BillListView.swift:92-99 | with a matching id: only the first match is marked paid, and the handed bill's amount is debited; with no match: nothing changes |
| BillList.PayingLowersUnpaidTotal | Banking/Landing/BillListView.swift:36-99 | with unique ids, paying an unpaid bill lowers the unpaid total and the balance by exactly its amount |
| BillList.PayingTwiceDebitsTwice | Banking/BillListView.swift:113-119 | a second payment of the same bill leaves the bills as they were but debits the amount again |
| BillList.SelectOnTap | Banking/BillListView.swift:72-76 | a tap on an unpaid bill selects it; a tap on a paid bill keeps the selection as it was |
| BillList.TapsNeverSelectPaid | Banking/Landing/BillListSection.swift:24-32 | over any sequence of taps, a paid bill is never selected |
| PaymentFlow.HasInsufficientFunds | Banking/PaymentConfirmationView.swift:36-38 | the screen's test holds exactly when the balance minus the bill's full amount is negative |
| PaymentFlow.InsufficientIffPaymentOverdraws | Banking/PaymentConfirmationView.swift:36-38 | the screen's funds test holds exactly when paying the bill would take the balance below zero |
| PaymentFlow.Next | Banking/PaymentConfirmationView.swift:40-92 | only settlement of a running payment calls onConfirm; success is never undone; processing starts only from a confirm tap, with no effect; a confirm tap on a disabled button (funds short, processing, success page or screen gone) changes nothing; an enabled cancel closes the screen calling onDismiss then dismiss, a disabled one changes nothing; a swipe changes nothing |
| PaymentFlow.ConfirmOnlyStartsProcessing | Banking/PaymentConfirmationView.swift:82-84 | an enabled confirm sets isProcessing and causes no other effect |
| PaymentFlow.SettlementCompletesPayment | Banking/PaymentConfirmationView.swift:85-91 | when the delay ends, onConfirm is called once, success is shown and processing ends |
| PaymentFlow.CancelIgnoredWhileProcessingOrDone | Banking/PaymentConfirmationView.swift:66-76 | cancel does nothing while processing or after success |
| PaymentFlow.OnlyDoneLeavesSuccess | Banking/PaymentConfirmationView.swift:43-77 | on the success page a swipe and cancel do nothing; Done calls onDismiss then dismiss |
| PaymentFlow.ConfirmCountMatchesSuccess | Banking/PaymentConfirmationView.swift:81-92 | over any run, onConfirm calls equal the number of times success appeared, and processing and success never coexist |
| PaymentFlow.PaymentRunsAtMostOnce | Banking/PaymentConfirmationView.swift:81-92 | from the first presentation, the payment runs at most once, and exactly once if success is reached |
| PaymentContent.InitialContent | Banking/PaymentConfirmationContentView.swift:62 | the payment amount starts at the bill's amount and the account at the first account |
| PaymentContent.AccountHasInsufficientFunds | Banking/PaymentConfirmationContentView.swift:67-69 | the content's test holds exactly when the selected account's balance minus the payment amount is negative |
| PaymentContent.SelectAccount | Banking/PaymentConfirmationContentView.swift:97-99 | choosing an account replaces the account and keeps the amount |
| PaymentContent.ApplyAmountText | Banking/PaymentConfirmationContentView.swift:135-139 | the amount follows the text only when the text parses; otherwise nothing changes |
| PaymentContent.BalanceAfterPayment | Banking/PaymentConfirmationContentView.swift:147-152 | the row shows balance minus amount, flagged exactly when that is negative |
| PaymentContent.ConfirmSection | Banking/PaymentConfirmationContentView.swift:177-207 | the banner shows exactly when the balance after payment is negative; confirm is disabled iff banner or processing; enabled confirm means an affordable amount |
| PaymentContent.WarningIffConfirmBlocked | Banking/PaymentConfirmation/PaymentConfirmationContentView.swift:71-79 | when idle, warning shown iff confirm disabled; while processing, confirm is never enabled |
| PaymentContent.ConfirmGuardIsContentButton | Banking/PaymentConfirmationContentView.swift:177-207 | the screen's confirm guard, given the content view's funds test, holds exactly when the content view's confirm button is on screen and not disabled |
| PaymentContent.GatesDisagreeAfterPayment | Banking/PaymentConfirmationContentView.swift:48-69 | with the list balance starting at the first account's balance, after one payment the screen's test and the content view's initial test disagree on a bill exactly when the payment carried the list balance across that bill's amount |
| AmountPicker.InitialScreen | Banking/AmountPicker/AmountPickerView.swift:32 | the selected amount starts at the bill's minimum due |
| AmountPicker.InsufficientFundsForMinimum | Banking/AmountPicker/AmountPickerView.swift:36-38 | the account is not short exactly when its balance covers the minimum due; short of the minimum means short of the full amount |
| AmountPicker.DialRange | Banking/AmountPicker/AmountPickerView.swift:55-61 | the dial runs from 0 to the bill's amount with the minimum due marked; well formed iff 0 ≤ minimum due ≤ amount |
| AmountPicker.LayoutFor | Banking/AmountPicker/AmountPickerView.swift:52-71 | dial and pay button are shown together exactly when the balance covers the minimum due; otherwise only the error banner |
| AmountPicker.Drag | Banking/AmountPicker/CircularAmountPicker.swift:140-149 | a sequence of drags keeps a well-formed bill's amount between its minimum due and its amount |
| AmountPicker.PayAmountWithinBill | Banking/AmountPicker/AmountPickerView.swift:66-71 | the pay button's amount is always between the minimum due and the bill's amount |
| SortPicker.Choose | Banking/Landing/BillSortPicker.swift:21-27 | after a choice that option is in force; the current option flips direction, a new one starts ascending |
| SortPicker.ToggleDirection | Banking/Landing/BillSortPicker.swift:51-53 | the direction flips and the option stays |
| SortPicker.ChooseSelectedTwiceRestores | Banking/Landing/BillSortPicker.swift:22-23 | choosing the current option equals the direction button, and twice restores the menu |
| SortPicker.ChooseNewThenAgain | Banking/Landing/BillSortPicker.swift:22-27 | a new option chosen twice ends in that option, descending |
| Scenarios.SampleBillsOwe | Banking/Bill.swift:87-125 | only the streaming service is paid, and the unpaid sample bills sum to 2382.49 |
| Scenarios.GatesDivergeAfterPayment | Banking/BillListView.swift:113-119 | with a 5400.00 bill that is not among the samples: from a list balance and first account of 5432.50, paying it leaves 32.50, and then the screen reports a 142.50 bill unaffordable while the content view does not |
| Scenarios.ElectricBillWalkthrough | Banking/Bill.swift:88-93 | the 142.50 bill on the dial: the top snaps to 17.8125 or 142.50 depending on the side, a quarter turn gives 35.625, and paying from 200 leaves 57.50 |

## Left out

- Scenarios.SampleBillsOwe: the sample amounts are taken as the decimals written. The app passes them as float literals to a `Decimal` parameter, which goes through `Double`; 79.99 and 15.99 have no exact `Double`, so the app's unpaid total is only approximately 2382.49 (its currency format rounds it to $2,382.49).
- CircularPicker.MinimumDueProgress: requires a non-empty range. The app divides by the span without a guard, and Decimal's behaviour on division by zero is not modelled.
- Rendering, layout, navigation, sheets, toolbars, icons, labels and the preview data are view code with no behaviour to state.
- The curved-label placement and the indicator offsets use floating-point trigonometry for layout only.
- The app computes `atan2` of the drag location and converts through Double, strings and Decimal. The model takes the `atan2` angle in degrees as input and uses exact arithmetic instead.
- The 1.5 s settlement delay and its async task become the single `SettlementElapsed` event.
- Parsing with `Decimal(string:)` is a function parameter. Currency, number and date formatting are not modelled, and neither is the amount text's initial formatting.
- `Date()`, `UUID()` and the date picker are clock, randomness and UI. Instants and ids are parameters.
- `Account.samples` is data, so the first sample account is a parameter. The Double-based balance view and detail row are presentation.
- Sort comparators other than due date do not exist in the code. The `dragLimit` argument passed to the dial is not declared by the dial, so it is not modelled.
- The on-screen "Total Unpaid" card's visibility condition is presentation around `UnpaidTotal`.

=== FILE: amount_picker.dfy ===
/**
 * The amount picker screen: a circular dial for a bill, running from zero
 * to the bill's amount with the bill's minimum due marked, offered only when
 * the selected account can cover the minimum due.
 */
module AmountPicker {
  import opened Bills
  import CircularPicker

  datatype PickerScreen = PickerScreen(selectedAccount: Account, selectedAmount: real)

  /** Which parts of the screen are on display. */
  datatype Layout = Layout(showsErrorBanner: bool, showsDial: bool, showsPayButton: bool)

  /** The screen as created: the first account, and the minimum due selected. */
  function InitialScreen(bill: Bill, firstAccount: Account): (s: PickerScreen)
    ensures s.selectedAmount == bill.minimumDueAmount
    ensures s.selectedAccount == firstAccount
  {
    PickerScreen(firstAccount, bill.minimumDueAmount)
  }

  /**
   * The selected account cannot even cover the minimum due, and so, when the
   * minimum due is at most the amount, not the full bill either.
   */
  predicate InsufficientFundsForMinimum(bill: Bill, account: Account)
    ensures !InsufficientFundsForMinimum(bill, account) <==> bill.minimumDueAmount <= account.balance
    ensures InsufficientFundsForMinimum(bill, account) && bill.minimumDueAmount <= bill.amount
            ==> account.balance < bill.amount
  {
    account.balance < bill.minimumDueAmount
  }

  /**
   * The dial's configuration for a bill: zero up to the bill's amount, with
   * the minimum due marked. It is well formed exactly when the bill's
   * minimum due lies between zero and its amount.
   */
  function DialRange(bill: Bill): (r: CircularPicker.PickerRange)
    ensures r.minimumAmount == 0.0
    ensures r.minimumDueAmount == bill.minimumDueAmount && r.maximumAmount == bill.amount
    ensures r.Valid() <==> 0.0 <= bill.minimumDueAmount <= bill.amount
  {
    CircularPicker.PickerRange(0.0, bill.minimumDueAmount, bill.amount)
  }

  /**
   * The screen's layout: either the error banner alone, or the dial
   * together with the pay button, depending on whether the account covers
   * the minimum due.
   */
  function LayoutFor(bill: Bill, account: Account): (l: Layout)
    ensures l.showsDial == l.showsPayButton
    ensures l.showsErrorBanner <==> !l.showsDial
    ensures l.showsDial <==> bill.minimumDueAmount <= account.balance
  {
    var short := InsufficientFundsForMinimum(bill, account);
    Layout(short, !short, !short)
  }

  /**
   * A sequence of drags on the dial, each given by the `atan2` angle of the
   * drag location. For a well-formed bill, starting anywhere from the
   * minimum due to the full amount, the amount stays in that interval.
   */
  function Drag(bill: Bill, selected: real, rawAngles: seq<real>): (amount: real)
    ensures 0.0 <= bill.minimumDueAmount <= selected <= bill.amount ==> bill.minimumDueAmount <= amount <= bill.amount
    ensures |rawAngles| > 0 && 0.0 <= bill.minimumDueAmount <= bill.amount ==> bill.minimumDueAmount <= amount <= bill.amount
    decreases |rawAngles|
  {
    if |rawAngles| == 0 then selected
    else Drag(bill, CircularPicker.UpdateAmount(DialRange(bill), selected, rawAngles[0]), rawAngles[1..])
  }

  /**
   * Whatever the user drags, the amount on the pay button is at least the
   * minimum due and at most the bill's amount.
   */
  lemma PayAmountWithinBill(bill: Bill, account: Account, rawAngles: seq<real>)
    requires 0.0 <= bill.minimumDueAmount <= bill.amount
    requires LayoutFor(bill, account).showsPayButton
    ensures var amount := Drag(bill, InitialScreen(bill, account).selectedAmount, rawAngles);
            bill.minimumDueAmount <= amount <= bill.amount
  {
  }
}

=== FILE: bill_list.dfy ===
/**
 * The bill list screen's logic, in both its generations (the older screen
 * calls the paid flag `isPaid`, the newer one `paid`; the logic is the same):
 * the bills shown (optionally hiding paid ones, ordered by due date), the
 * total still owed, paying a bill, and which bill a tap selects.
 *
 * The bills and the account balance are the screen's two bindings, gathered
 * here in a `Session` value; operations return the updated session.
 */
module BillList {
  import opened Options
  import opened Bills

  datatype Session = Session(bills: seq<Bill>, accountBalance: real)

  /**
   * Whether a bill is listed under the given filter setting: with paid bills
   * shown every bill is listed, otherwise exactly the unpaid ones.
   */
  predicate Shown(b: Bill, showPaidBills: bool)
    ensures showPaidBills ==> Shown(b, showPaidBills)
    ensures !showPaidBills ==> (Shown(b, showPaidBills) <==> !b.paid)
  {
    showPaidBills || !b.paid
  }

  /**
   * The filter step: keeps the listed bills in input order. Only listed
   * bills come out; with paid bills shown, all of them do.
   */
  function FilterShown(bills: seq<Bill>, showPaidBills: bool): (r: seq<Bill>)
    ensures forall i :: 0 <= i < |r| ==> Shown(r[i], showPaidBills)
    ensures |r| <= |bills|
    ensures (forall i :: 0 <= i < |bills| ==> !Shown(bills[i], showPaidBills)) ==> r == []
    ensures showPaidBills ==> r == bills
  {
    if |bills| == 0 then []
    else
      assert bills == [bills[0]] + bills[1..];
      var rest := FilterShown(bills[1..], showPaidBills);
      if Shown(bills[0], showPaidBills) then [bills[0]] + rest else rest
  }

  /** The filter keeps each listed bill exactly as often as it occurs, and drops the rest. */
  lemma {:induction false} FilterShownCounts(bills: seq<Bill>, showPaidBills: bool)
    ensures forall b :: multiset(FilterShown(bills, showPaidBills))[b]
                        == if Shown(b, showPaidBills) then multiset(bills)[b] else 0
  {
    if |bills| > 0 {
      assert bills == [bills[0]] + bills[1..];
      FilterShownCounts(bills[1..], showPaidBills);
    }
  }

  /** Filtering distributes over appending one bill, as the running total needs. */
  lemma {:induction false} FilterShownAppend(bills: seq<Bill>, b: Bill, showPaidBills: bool)
    ensures FilterShown(bills + [b], showPaidBills)
            == FilterShown(bills, showPaidBills) + (if Shown(b, showPaidBills) then [b] else [])
  {
    if |bills| == 0 {
      assert bills + [b] == [b];
    } else {
      assert (bills + [b])[1..] == bills[1..] + [b];
      FilterShownAppend(bills[1..], b, showPaidBills);
    }
  }

  /** Non-decreasing by due date. */
  ghost predicate SortedByDueDate(s: seq<Bill>) {
    forall i, j :: 0 <= i < j < |s| ==> s[i].dueDate <= s[j].dueDate
  }

  /** Every bill in `s` is due no earlier than `d`. */
  ghost predicate DueNoEarlierThan(s: seq<Bill>, d: Date) {
    forall i :: 0 <= i < |s| ==> d <= s[i].dueDate
  }

  /** A lower bound of an ordered list, placed in front, keeps it ordered. */
  lemma PrependKeepsSorted(x: Bill, s: seq<Bill>)
    requires SortedByDueDate(s) && DueNoEarlierThan(s, x.dueDate)
    ensures SortedByDueDate([x] + s)
  {
  }

  /** A bound on every element carries over to a permutation. */
  lemma BoundCarriesOver(s: seq<Bill>, t: seq<Bill>, d: Date)
    requires DueNoEarlierThan(s, d) && multiset(t) == multiset(s)
    ensures DueNoEarlierThan(t, d)
  {
    forall i | 0 <= i < |t| ensures d <= t[i].dueDate {
      assert t[i] in multiset(s);
      var k :| 0 <= k < |s| && s[k] == t[i];
    }
  }

  /** Places `b` into an ordered list, keeping it ordered and losing nothing. */
  function InsertByDueDate(b: Bill, s: seq<Bill>): (r: seq<Bill>)
    requires SortedByDueDate(s)
    ensures SortedByDueDate(r)
    ensures multiset(r) == multiset(s) + multiset{b}
  {
    if |s| == 0 then [b]
    else if b.dueDate <= s[0].dueDate then [b] + s
    else
      assert s == [s[0]] + s[1..];
      var rest := InsertByDueDate(b, s[1..]);
      assert DueNoEarlierThan(s[1..] + [b], s[0].dueDate);
      assert multiset(rest) == multiset(s[1..] + [b]);
      BoundCarriesOver(s[1..] + [b], rest, s[0].dueDate);
      PrependKeepsSorted(s[0], rest);
      [s[0]] + rest
  }

  /**
   * `sorted { $0.dueDate < $1.dueDate }`: an ordering by due date that is a
   * permutation of its input. Nothing is promised about the relative order
   * of bills due at the same instant.
   */
  function SortByDueDate(s: seq<Bill>): (r: seq<Bill>)
    ensures SortedByDueDate(r)
    ensures multiset(r) == multiset(s)
  {
    if |s| == 0 then []
    else
      assert s == [s[0]] + s[1..];
      InsertByDueDate(s[0], SortByDueDate(s[1..]))
  }

  /**
   * The bills the list shows: ordered by due date, and as a multiset exactly
   * the input bills the filter lets through, so with paid bills shown it is
   * a permutation of all bills and otherwise it holds every unpaid bill and
   * no paid one.
   */
  function FilteredBills(bills: seq<Bill>, showPaidBills: bool): (r: seq<Bill>)
    ensures SortedByDueDate(r)
    ensures forall b :: multiset(r)[b] == if Shown(b, showPaidBills) then multiset(bills)[b] else 0
    ensures showPaidBills ==> multiset(r) == multiset(bills)
    ensures forall i :: 0 <= i < |r| ==> Shown(r[i], showPaidBills)
  {
    var f := FilterShown(bills, showPaidBills);
    var r := SortByDueDate(f);
    FilterShownCounts(bills, showPaidBills);
    PermutationKeepsShown(f, r, showPaidBills);
    r
  }

  /** A permutation of listed bills holds only listed bills. */
  lemma PermutationKeepsShown(f: seq<Bill>, r: seq<Bill>, showPaidBills: bool)
    requires forall i :: 0 <= i < |f| ==> Shown(f[i], showPaidBills)
    requires multiset(r) == multiset(f)
    ensures forall i :: 0 <= i < |r| ==> Shown(r[i], showPaidBills)
  {
    forall i | 0 <= i < |r| ensures Shown(r[i], showPaidBills) {
      assert r[i] in multiset(f);
      var k :| 0 <= k < |f| && f[k] == r[i];
    }
  }

  /** The sum of the amounts of a list of bills. */
  function AmountSum(s: seq<Bill>): (total: real) {
    if |s| == 0 then 0.0 else s[0].amount + AmountSum(s[1..])
  }

  /** The amount still owed: the sum over the unpaid bills. */
  function SumOfUnpaid(bills: seq<Bill>): (owed: real) {
    AmountSum(FilterShown(bills, false))
  }

  lemma {:induction false} AmountSumAppend(s: seq<Bill>, b: Bill)
    ensures AmountSum(s + [b]) == AmountSum(s) + b.amount
  {
    if |s| == 0 {
      assert s + [b] == [b];
    } else {
      assert (s + [b])[1..] == s[1..] + [b];
      AmountSumAppend(s[1..], b);
    }
  }

  /** Taking one bill out of a list takes exactly its amount out of the sum. */
  lemma {:induction false} AmountSumRemove(s: seq<Bill>, k: nat)
    requires k < |s|
    ensures AmountSum(s) == s[k].amount + AmountSum(s[..k] + s[k + 1..])
  {
    if k == 0 {
      assert s[..0] + s[1..] == s[1..];
    } else {
      var t := s[1..];
      AmountSumRemove(t, k - 1);
      assert s[..k] + s[k + 1..] == [s[0]] + (t[..k - 1] + t[k..]);
    }
  }

  /**
   * The sum does not depend on the order of the bills: lists that are
   * permutations of each other have the same sum.
   */
  lemma {:induction false} AmountSumPermutation(a: seq<Bill>, b: seq<Bill>)
    requires multiset(a) == multiset(b)
    ensures AmountSum(a) == AmountSum(b)
  {
    if |a| == 0 {
      assert |multiset(b)| == 0;
    } else {
      var x := a[0];
      assert x in multiset(b);
      var k :| 0 <= k < |b| && b[k] == x;
      var rest := b[..k] + b[k + 1..];
      MultisetWithout(b, k);
      assert a == [x] + a[1..];
      assert multiset(a[1..]) == multiset(a) - multiset{x};
      AmountSumPermutation(a[1..], rest);
      AmountSumRemove(b, k);
    }
  }

  /** Taking one bill out of a list takes one copy of it out of the multiset. */
  lemma MultisetWithout(b: seq<Bill>, k: nat)
    requires k < |b|
    ensures multiset(b[..k] + b[k + 1..]) == multiset(b) - multiset{b[k]}
  {
    assert b == b[..k] + [b[k]] + b[k + 1..];
  }

  /** Appending a bill adds its amount to the sum owed exactly when it is unpaid. */
  lemma SumOfUnpaidAppend(bills: seq<Bill>, b: Bill)
    ensures SumOfUnpaid(bills + [b]) == SumOfUnpaid(bills) + (if b.paid then 0.0 else b.amount)
  {
    FilterShownAppend(bills, b, false);
    if !b.paid {
      AmountSumAppend(FilterShown(bills, false), b);
    } else {
      assert FilterShown(bills, false) + [] == FilterShown(bills, false);
    }
  }

  /**
   * `unpaidTotal`: filters out the paid bills and adds up the rest from the
   * left, as `reduce(0, +)` does; the result is the sum over the unpaid
   * bills, and 0 when every bill is paid.
   */
  method UnpaidTotal(bills: seq<Bill>) returns (total: real)
    ensures total == SumOfUnpaid(bills)
    ensures (forall i :: 0 <= i < |bills| ==> bills[i].paid) ==> total == 0.0
  {
    var unpaid := FilterShown(bills, false);
    total := 0.0;
    var i := 0;
    while i < |unpaid|
      invariant 0 <= i <= |unpaid|
      invariant total == AmountSum(unpaid[..i])
    {
      assert unpaid[..i + 1] == unpaid[..i] + [unpaid[i]];
      AmountSumAppend(unpaid[..i], unpaid[i]);
      total := total + unpaid[i].amount;
      i := i + 1;
    }
    assert unpaid[..i] == unpaid;
  }

  /**
   * The total shown on the card is the sum over the bills the list shows
   * when paid bills are hidden.
   */
  lemma UnpaidTotalMatchesShownList(bills: seq<Bill>)
    ensures SumOfUnpaid(bills) == AmountSum(FilteredBills(bills, false))
  {
    AmountSumPermutation(FilterShown(bills, false), FilteredBills(bills, false));
  }

  /** The index of the first bill with the given id, as `firstIndex(where:)` finds it. */
  function FirstIndexOf(bills: seq<Bill>, id: BillId): (r: Option<nat>)
    ensures r.Some? ==> r.value < |bills| && bills[r.value].id == id
    ensures r.Some? ==> forall j :: 0 <= j < r.value ==> bills[j].id != id
    ensures r.None? <==> forall j :: 0 <= j < |bills| ==> bills[j].id != id
  {
    if |bills| == 0 then None
    else if bills[0].id == id then Some(0)
    else
      match FirstIndexOf(bills[1..], id)
      case None => None
      case Some(k) => Some(k + 1)
  }

  /**
   * `payBill`: marks the first bill with the given bill's id as paid and
   * debits the given bill's full amount from the balance; when no bill has
   * that id, nothing changes. Every other bill is left as it was.
   */
  function PayBill(s: Session, bill: Bill): (r: Session)
    ensures |r.bills| == |s.bills|
    ensures (forall j :: 0 <= j < |s.bills| ==> s.bills[j].id != bill.id) ==> r == s
    ensures forall i :: 0 <= i < |s.bills| && s.bills[i].id == bill.id && (forall j :: 0 <= j < i ==> s.bills[j].id != bill.id)
              ==> r.bills == s.bills[i := s.bills[i].(paid := true)] && r.accountBalance == s.accountBalance - bill.amount
  {
    match FirstIndexOf(s.bills, bill.id)
    case None => s
    case Some(i) =>
      Session(s.bills[i := s.bills[i].(paid := true)], s.accountBalance - bill.amount)
  }

  /** No two bills share an id. */
  ghost predicate UniqueIds(bills: seq<Bill>) {
    forall i, j :: 0 <= i < j < |bills| ==> bills[i].id != bills[j].id
  }

  /** Marking one unpaid bill paid lowers the sum owed by exactly its amount. */
  lemma {:induction false} MarkPaidLowersSum(bills: seq<Bill>, i: nat)
    requires i < |bills| && !bills[i].paid
    ensures SumOfUnpaid(bills[i := bills[i].(paid := true)]) == SumOfUnpaid(bills) - bills[i].amount
  {
    var after := bills[i := bills[i].(paid := true)];
    assert bills == [bills[0]] + bills[1..];
    assert after == [after[0]] + after[1..];
    if i > 0 {
      assert after[1..] == bills[1..][i - 1 := bills[i].(paid := true)];
      MarkPaidLowersSum(bills[1..], i - 1);
    } else {
      assert after[1..] == bills[1..];
    }
  }

  /**
   * With unique ids, paying an unpaid bill of the list lowers the amount
   * still owed by exactly that bill's amount, and the balance by the same.
   */
  lemma PayingLowersUnpaidTotal(s: Session, i: nat)
    requires UniqueIds(s.bills)
    requires i < |s.bills| && !s.bills[i].paid
    ensures SumOfUnpaid(PayBill(s, s.bills[i]).bills) == SumOfUnpaid(s.bills) - s.bills[i].amount
    ensures PayBill(s, s.bills[i]).accountBalance == s.accountBalance - s.bills[i].amount
  {
    MarkPaidLowersSum(s.bills, i);
  }

  /**
   * Paying does not check the paid flag: paying the same bill a second time
   * leaves the bills as the first payment did but debits the amount again.
   */
  lemma PayingTwiceDebitsTwice(s: Session, bill: Bill)
    requires exists i :: 0 <= i < |s.bills| && s.bills[i].id == bill.id
    ensures PayBill(PayBill(s, bill), bill).bills == PayBill(s, bill).bills
    ensures PayBill(PayBill(s, bill), bill).accountBalance == s.accountBalance - 2.0 * bill.amount
  {
    var i := FirstIndexOf(s.bills, bill.id).value;
    var once := PayBill(s, bill);
    assert once.bills == s.bills[i := s.bills[i].(paid := true)];
    assert forall j :: 0 <= j < i ==> once.bills[j] == s.bills[j];
    assert once.bills[i].id == bill.id;
    assert FirstIndexOf(once.bills, bill.id) == Some(i);
  }

  /**
   * The tap handler of a bill row: an unpaid bill becomes the selection, a
   * tap on a paid bill keeps whatever was selected.
   */
  function SelectOnTap(selected: Option<Bill>, tapped: Bill): (r: Option<Bill>)
    ensures !tapped.paid ==> r == Some(tapped)
    ensures tapped.paid ==> r == selected
  {
    if !tapped.paid then Some(tapped) else selected
  }

  /** Nothing selected, or an unpaid bill selected. */
  predicate SelectionUnpaid(selected: Option<Bill>) {
    selected.None? || !selected.value.paid
  }

  /** A sequence of taps, in order. */
  function TapAll(selected: Option<Bill>, taps: seq<Bill>): (r: Option<Bill>)
    decreases |taps|
  {
    if |taps| == 0 then selected else TapAll(SelectOnTap(selected, taps[0]), taps[1..])
  }

  /** Whatever bills are tapped, in any order, a paid bill is never selected. */
  lemma {:induction false} TapsNeverSelectPaid(selected: Option<Bill>, taps: seq<Bill>)
    requires SelectionUnpaid(selected)
    ensures SelectionUnpaid(TapAll(selected, taps))
    decreases |taps|
  {
    if |taps| > 0 {
      TapsNeverSelectPaid(SelectOnTap(selected, taps[0]), taps[1..]);
    }
  }
}

=== FILE: bills.dfy ===
/**
 * The domain records of the banking demo: bills, their categories and
 * accounts. Monetary amounts are exact reals (the app uses Foundation's
 * base-10 `Decimal`), dates are instants in whole seconds (only their order
 * is ever used) and identifiers are plain integers standing for UUIDs.
 */
module Bills {
  import opened Options

  /** Stands for the bill's `UUID`. */
  type BillId = int

  /** Stands for an account's `UUID`. */
  type AccountId = int

  /** An instant, in seconds; the model only compares and offsets instants. */
  type Date = int

  /** Seconds in a day, the unit the sample bills' due dates are offset by. */
  const SecondsPerDay: int := 86400

  /** The share of the amount owed that is due when no minimum is supplied. */
  const DefaultMinimumDueRate: real := 0.125

  datatype BillCategory =
    | Utilities
    | Internet
    | Phone
    | Rent
    | Insurance
    | Subscription
    | Credit
    | Other

  /**
   * A bill. `paid` is the one field that changes after creation
   * (`isPaid` in the older list screen, `paid` in the newer one).
   */
  datatype Bill = Bill(
    id: BillId,
    payee: string,
    amount: real,
    minimumDueAmount: real,
    dueDate: Date,
    category: BillCategory,
    paid: bool
  )

  datatype AccountType = Checking | Savings

  datatype Account = Account(id: AccountId, name: string, accountType: AccountType, balance: real)

  /**
   * The bill initialiser: a missing minimum due defaults to one eighth of the
   * amount and a missing paid flag to false; every other field is stored as
   * given.
   */
  function MakeBill(
    id: BillId,
    payee: string,
    amount: real,
    dueDate: Date,
    category: BillCategory,
    minimumDue: Option<real> := None,
    paid: bool := false
  ): (b: Bill)
    ensures b.id == id && b.payee == payee && b.amount == amount
    ensures b.dueDate == dueDate && b.category == category && b.paid == paid
    ensures minimumDue.Some? ==> b.minimumDueAmount == minimumDue.value
    ensures minimumDue.None? ==> 8.0 * b.minimumDueAmount == amount
    ensures minimumDue.None? && 0.0 <= amount ==> 0.0 <= b.minimumDueAmount <= amount
  {
    Bill(id, payee, amount, minimumDue.OrElse(amount * DefaultMinimumDueRate), dueDate, category, paid)
  }

  /**
   * The six sample bills, due a few days after `now`. The identifiers the
   * app draws from `UUID()` are supplied by the caller.
   */
  function SampleBills(now: Date, ids: seq<BillId>): (bills: seq<Bill>)
    requires |ids| == 6
    ensures |bills| == 6
    ensures forall i :: 0 <= i < 6 ==> bills[i].id == ids[i] && now < bills[i].dueDate
    ensures forall i :: 0 <= i < 6 ==> 8.0 * bills[i].minimumDueAmount == bills[i].amount
  {
    [
      MakeBill(ids[0], "Electric Company", 142.50, now + SecondsPerDay * 3, Utilities),
      MakeBill(ids[1], "Internet Provider", 79.99, now + SecondsPerDay * 5, Internet),
      MakeBill(ids[2], "Phone Company", 65.00, now + SecondsPerDay * 7, Phone),
      MakeBill(ids[3], "Landlord Properties", 1850.00, now + SecondsPerDay * 10, Rent),
      MakeBill(ids[4], "Auto Insurance", 245.00, now + SecondsPerDay * 15, Insurance),
      MakeBill(ids[5], "Streaming Service", 15.99, now + SecondsPerDay * 2, Subscription, paid := true)
    ]
  }
}

=== FILE: circular_picker.dfy ===
/**
 * The circular amount picker: a drag on a circular track becomes an amount
 * between a minimum and a maximum. Zero degrees is the top of the circle and
 * angles grow clockwise. A narrow arc just before the top (past 355 degrees)
 * together with the arc from the top up to the minimum-due marker form a
 * dead zone; a drag that lands there snaps to one of its two edges,
 * depending on which half of the circle the current amount sits in.
 *
 * The drag location's `atan2` is taken as an input (`rawAngle`, in degrees,
 * as `atan2` returns it) and all arithmetic is exact, so the Decimal/Double
 * conversions of the app have no counterpart here.
 */
module CircularPicker {

  /** Degrees in a full turn of the dial. */
  const FullCircle: real := 360.0

  /** Amounts in the left half of the dial (at or past this angle) snap to the full amount. */
  const HalfCircle: real := 180.0

  /** Angles past this one, up to the top of the dial, are in the dead zone. */
  const DeadZoneStart: real := 355.0

  /** `atan2` measures from the positive x axis; the dial measures from the top. */
  const QuarterTurn: real := 90.0

  /** The three amounts the picker is configured with. */
  datatype PickerRange = PickerRange(minimumAmount: real, minimumDueAmount: real, maximumAmount: real)
  {
    /** The configuration callers are meant to pass: minimum ≤ minimum due ≤ maximum. */
    predicate Valid() {
      minimumAmount <= minimumDueAmount <= maximumAmount
    }

    /** The width of the selectable range. */
    function Span(): real {
      maximumAmount - minimumAmount
    }
  }

  /**
   * The amount at a dial angle, before clamping: the angle's share of a full
   * turn, scaled onto the range.
   */
  function AmountAtAngle(r: PickerRange, angle: real): (amount: real)
    ensures r.minimumAmount < r.maximumAmount && 0.0 <= angle <= FullCircle ==> r.minimumAmount <= amount <= r.maximumAmount
    ensures r.minimumAmount < r.maximumAmount ==> (amount < r.maximumAmount <==> angle < FullCircle)
  {
    var share := angle / FullCircle;
    var span := r.maximumAmount - r.minimumAmount;
    assert share < 1.0 <==> angle < FullCircle;
    assert 0.0 <= angle <= FullCircle ==> 0.0 <= share <= 1.0;
    if 0.0 < span then
      ScaleBySpan(share, span);
      r.minimumAmount + share * span
    else
      r.minimumAmount + share * span
  }

  /** Scaling a share by a positive span: shares in [0, 1] stay within the span, and only a full share reaches it. */
  lemma ScaleBySpan(share: real, span: real)
    requires 0.0 < span
    ensures 0.0 <= share <= 1.0 ==> 0.0 <= share * span <= span
    ensures share * span < span <==> share < 1.0
  {
    assert share * span - span == (share - 1.0) * span;
  }

  /** Monotonicity of the angle-to-amount map on a non-empty range. */
  lemma AmountAtAngleMonotonic(r: PickerRange, a: real, b: real)
    requires r.minimumAmount < r.maximumAmount
    ensures a <= b <==> AmountAtAngle(r, a) <= AmountAtAngle(r, b)
    ensures a < b <==> AmountAtAngle(r, a) < AmountAtAngle(r, b)
  {
    var s := r.Span();
    assert AmountAtAngle(r, b) - AmountAtAngle(r, a) == (b - a) / FullCircle * s;
  }

  /** A part of a positive whole is a fraction between 0 and 1. */
  lemma RatioBounds(part: real, whole: real)
    requires 0.0 <= part <= whole
    requires 0.0 < whole
    ensures 0.0 <= part / whole <= 1.0
  {
    assert part / whole * whole == part;
  }

  /**
   * How far `amount` sits into the range, as a fraction; 0 when the range is
   * empty or inverted.
   */
  function Progress(r: PickerRange, amount: real): (p: real)
    ensures r.maximumAmount <= r.minimumAmount ==> p == 0.0
    ensures r.minimumAmount < r.maximumAmount ==> r.minimumAmount + p * r.Span() == amount
    ensures r.minimumAmount <= amount <= r.maximumAmount ==> 0.0 <= p <= 1.0
  {
    if r.maximumAmount > r.minimumAmount then
      var p := (amount - r.minimumAmount) / r.Span();
      if r.minimumAmount <= amount <= r.maximumAmount then
        RatioBounds(amount - r.minimumAmount, r.Span());
        p
      else
        p
    else
      0.0
  }

  /**
   * The dial angle of `amount`. On a non-empty range this inverts
   * `AmountAtAngle`, and amounts in the range map into one turn.
   */
  function ProgressAngle(r: PickerRange, amount: real): (angle: real)
    ensures r.maximumAmount <= r.minimumAmount ==> angle == 0.0
    ensures r.minimumAmount < r.maximumAmount ==> AmountAtAngle(r, angle) == amount
    ensures r.minimumAmount <= amount <= r.maximumAmount ==> 0.0 <= angle <= FullCircle
  {
    Progress(r, amount) * FullCircle
  }

  /**
   * The fraction of the range at which the minimum-due marker is drawn. The
   * app divides by the span without a guard, so an empty range is excluded.
   */
  function MinimumDueProgress(r: PickerRange): (p: real)
    requires r.minimumAmount < r.maximumAmount
    ensures r.minimumAmount + p * r.Span() == r.minimumDueAmount
    ensures r.Valid() ==> 0.0 <= p <= 1.0
  {
    var p := (r.minimumDueAmount - r.minimumAmount) / r.Span();
    if r.Valid() then
      RatioBounds(r.minimumDueAmount - r.minimumAmount, r.Span());
      p
    else
      p
  }

  /**
   * The dial angle of the minimum due amount, as the drag handler computes
   * it: 0 when the range is empty or inverted.
   */
  function MinimumDueAngle(r: PickerRange): (angle: real)
    ensures r.maximumAmount <= r.minimumAmount ==> angle == 0.0
    ensures r.minimumAmount < r.maximumAmount ==> AmountAtAngle(r, angle) == r.minimumDueAmount
    ensures r.Valid() ==> 0.0 <= angle <= FullCircle
  {
    if r.Span() > 0.0 then MinimumDueProgress(r) * FullCircle else 0.0
  }

  /**
   * Turns the `atan2` angle of the drag location into a dial angle: a quarter
   * turn so that 0 is the top, then one full turn added to a negative result.
   */
  function NormalizeAngle(rawAngle: real): (angle: real)
    ensures angle == rawAngle + QuarterTurn || angle == rawAngle + QuarterTurn + FullCircle
    ensures -FullCircle - QuarterTurn <= rawAngle ==> 0.0 <= angle
    ensures -HalfCircle <= rawAngle <= HalfCircle ==> 0.0 <= angle < FullCircle
  {
    var angle := rawAngle + QuarterTurn;
    if angle < 0.0 then angle + FullCircle else angle
  }

  /**
   * The arc a drag is not allowed to land on: everything outside the
   * selectable arc from the minimum-due angle up to 355 degrees.
   */
  predicate InDeadZone(angle: real, minimumDueAngle: real)
    ensures !InDeadZone(angle, minimumDueAngle) <==> minimumDueAngle <= angle <= DeadZoneStart
  {
    angle > DeadZoneStart || angle < minimumDueAngle
  }

  /**
   * The angle a drag settles on: outside the dead zone the angle itself;
   * inside it, the minimum-due edge when the current amount is in the right
   * half of the dial, otherwise the full-turn edge.
   */
  function SnapAngle(angle: real, minimumDueAngle: real, currentAngle: real): (snapped: real)
    ensures !InDeadZone(angle, minimumDueAngle) ==> snapped == angle
    ensures InDeadZone(angle, minimumDueAngle)
            ==> snapped == (if currentAngle < HalfCircle then minimumDueAngle else FullCircle)
  {
    if InDeadZone(angle, minimumDueAngle) then
      if currentAngle < HalfCircle then minimumDueAngle else FullCircle
    else
      angle
  }

  /**
   * `min(max(x, lo), hi)`: within [lo, hi] when lo ≤ hi, and the identity on
   * values already there.
   */
  function Clamp(x: real, lo: real, hi: real): (r: real)
    ensures lo <= hi ==> lo <= r <= hi
    ensures lo <= x <= hi ==> r == x
    ensures hi < lo ==> r == hi
  {
    var atLeastLo := if x < lo then lo else x;
    if hi < atLeastLo then hi else atLeastLo
  }

  /**
   * The drag handler: the amount that replaces `selected` when the handle is
   * dragged to a point whose `atan2` angle is `rawAngle`. On a well-formed
   * range the result never drops below the minimum due nor exceeds the
   * maximum, and an empty range always yields its minimum.
   */
  function UpdateAmount(r: PickerRange, selected: real, rawAngle: real): (amount: real)
    ensures r.minimumAmount <= r.maximumAmount ==> r.minimumAmount <= amount <= r.maximumAmount
    ensures r.Valid() ==> r.minimumDueAmount <= amount <= r.maximumAmount
    ensures r.maximumAmount == r.minimumAmount ==> amount == r.minimumAmount
  {
    var dueAngle := MinimumDueAngle(r);
    var angle := SnapAngle(NormalizeAngle(rawAngle), dueAngle, ProgressAngle(r, selected));
    var amount := Clamp(AmountAtAngle(r, angle), r.minimumAmount, r.maximumAmount);
    assert r.Valid() && r.minimumAmount < r.maximumAmount ==> r.minimumDueAmount <= amount by {
      if r.Valid() && r.minimumAmount < r.maximumAmount {
        if dueAngle <= angle {
          AmountAtAngleMonotonic(r, dueAngle, angle);
        } else if angle > DeadZoneStart {
          AmountAtAngleMonotonic(r, dueAngle, angle);
        }
      }
    }
    amount
  }

  /**
   * A drag into the dead zone while the current amount sits in the right half
   * of the dial stops exactly at the minimum due.
   */
  lemma DeadZoneSnapsToMinimumDue(r: PickerRange, selected: real, rawAngle: real)
    requires r.Valid()
    requires InDeadZone(NormalizeAngle(rawAngle), MinimumDueAngle(r))
    requires ProgressAngle(r, selected) < HalfCircle
    ensures UpdateAmount(r, selected, rawAngle) == r.minimumDueAmount
  {
    if r.minimumAmount < r.maximumAmount {
      assert AmountAtAngle(r, MinimumDueAngle(r)) == r.minimumDueAmount;
    }
  }

  /**
   * A drag into the dead zone while the current amount sits in the left half
   * of the dial stops exactly at the maximum.
   */
  lemma DeadZoneSnapsToMaximum(r: PickerRange, selected: real, rawAngle: real)
    requires r.minimumAmount <= r.maximumAmount
    requires InDeadZone(NormalizeAngle(rawAngle), MinimumDueAngle(r))
    requires ProgressAngle(r, selected) >= HalfCircle
    ensures UpdateAmount(r, selected, rawAngle) == r.maximumAmount
  {
    assert AmountAtAngle(r, FullCircle) == r.maximumAmount;
  }

  /** A drag that lands in the dead zone yields one of its two edges and nothing in between. */
  lemma DeadZoneYieldsAnEdge(r: PickerRange, selected: real, rawAngle: real)
    requires r.Valid()
    requires InDeadZone(NormalizeAngle(rawAngle), MinimumDueAngle(r))
    ensures var amount := UpdateAmount(r, selected, rawAngle);
            amount == r.minimumDueAmount || amount == r.maximumAmount
  {
    if ProgressAngle(r, selected) < HalfCircle {
      DeadZoneSnapsToMinimumDue(r, selected, rawAngle);
    } else {
      DeadZoneSnapsToMaximum(r, selected, rawAngle);
    }
  }

  /**
   * Outside the dead zone the drag angle is taken as it is: the amount is the
   * angle's share of the range, whatever the current amount was, and it is
   * at least the minimum due.
   */
  lemma OutsideDeadZoneFollowsAngle(r: PickerRange, selected: real, rawAngle: real)
    requires r.Valid()
    requires !InDeadZone(NormalizeAngle(rawAngle), MinimumDueAngle(r))
    ensures UpdateAmount(r, selected, rawAngle) == AmountAtAngle(r, NormalizeAngle(rawAngle))
    ensures r.minimumDueAmount <= UpdateAmount(r, selected, rawAngle)
  {
    var angle := NormalizeAngle(rawAngle);
    if r.minimumAmount < r.maximumAmount {
      AmountAtAngleMonotonic(r, MinimumDueAngle(r), angle);
    }
  }

  /**
   * A drag strictly between the minimum-due marker and the start of the dead
   * zone selects an amount strictly between the minimum due and the maximum.
   */
  lemma InteriorAngleGivesInteriorAmount(r: PickerRange, selected: real, rawAngle: real)
    requires r.Valid() && r.minimumAmount < r.maximumAmount
    requires MinimumDueAngle(r) < NormalizeAngle(rawAngle) < DeadZoneStart
    ensures r.minimumDueAmount < UpdateAmount(r, selected, rawAngle) < r.maximumAmount
  {
    var angle := NormalizeAngle(rawAngle);
    OutsideDeadZoneFollowsAngle(r, selected, rawAngle);
    AmountAtAngleMonotonic(r, MinimumDueAngle(r), angle);
  }

  /**
   * The current amount is consulted only for which half of the dial it sits
   * in: two amounts in the same half lead to the same update.
   */
  lemma OnlyTheCurrentHalfMatters(r: PickerRange, selected: real, other: real, rawAngle: real)
    requires (ProgressAngle(r, selected) < HalfCircle) == (ProgressAngle(r, other) < HalfCircle)
    ensures UpdateAmount(r, selected, rawAngle) == UpdateAmount(r, other, rawAngle)
  {
  }

  /**
   * Dragging the handle to where it already is leaves the amount unchanged,
   * for every amount the picker can reach outside the dead zone.
   */
  lemma DragToCurrentAngleKeepsAmount(r: PickerRange, selected: real, rawAngle: real)
    requires r.Valid() && r.minimumAmount < r.maximumAmount
    requires r.minimumDueAmount <= selected <= r.maximumAmount
    requires NormalizeAngle(rawAngle) == ProgressAngle(r, selected) <= DeadZoneStart
    ensures UpdateAmount(r, selected, rawAngle) == selected
  {
    var angle := NormalizeAngle(rawAngle);
    AmountAtAngleMonotonic(r, MinimumDueAngle(r), angle);
    OutsideDeadZoneFollowsAngle(r, selected, rawAngle);
  }
}

=== FILE: options.dfy ===
/** Optional values, used where the Swift code has an optional (`T?`). */
module Options {

  /** `None` stands for Swift's `nil`. */
  datatype Option<+T> = None | Some(value: T)
  {
    /** Swift's `??` operator: the wrapped value, or `default` when there is none. */
    function OrElse(default: T): (r: T)
      ensures Some? ==> r == value
      ensures None? ==> r == default
    {
      match this
      case Some(v) => v
      case None => default
    }
  }
}

=== FILE: payment_content.dfy ===
/**
 * The content of the payment confirmation screen, in both of its versions:
 * an account chosen from the sample accounts (the first one to start with),
 * an editable payment amount that starts at the bill's full amount, the
 * balance that would remain, an insufficient-funds warning and the confirm
 * button's enabled state.
 *
 * The older version edits the amount through a text field; parsing the
 * text (`Decimal(string:)`) is passed in as a partial function.
 */
module PaymentContent {
  import opened Options
  import opened Bills
  import PaymentFlow
  import BillList

  datatype Content = Content(selectedAccount: Account, paymentAmount: real)

  /** A row of the details card: a value and whether it is flagged. */
  datatype DetailRow = DetailRow(value: real, isWarning: bool)

  /** What the bottom of the screen offers: the warning banner and the confirm button's state. */
  datatype ConfirmArea = ConfirmArea(showsWarning: bool, confirmDisabled: bool)

  /** The state a freshly created content view starts in. */
  function InitialContent(bill: Bill, firstAccount: Account): (c: Content)
    ensures c.paymentAmount == bill.amount
    ensures c.selectedAccount == firstAccount
  {
    Content(firstAccount, bill.amount)
  }

  /** The selected account cannot cover the payment amount. */
  predicate AccountHasInsufficientFunds(c: Content)
    ensures AccountHasInsufficientFunds(c) <==> c.selectedAccount.balance - c.paymentAmount < 0.0
  {
    c.selectedAccount.balance < c.paymentAmount
  }

  /** Picking another account from the menu; the amount stays. */
  function SelectAccount(c: Content, account: Account): (r: Content)
    ensures r.selectedAccount == account
    ensures r.paymentAmount == c.paymentAmount
  {
    c.(selectedAccount := account)
  }

  /**
   * A change of the amount text field: the amount follows the text only
   * when the text parses as a decimal number, and stays otherwise.
   */
  function ApplyAmountText(c: Content, text: string, parse: string -> Option<real>): (r: Content)
    ensures r.selectedAccount == c.selectedAccount
    ensures parse(text).Some? ==> r.paymentAmount == parse(text).value
    ensures parse(text).None? ==> r == c
  {
    match parse(text)
    case Some(amount) => c.(paymentAmount := amount)
    case None => c
  }

  /**
   * The "Balance After Payment" row: what is left once the payment is taken
   * from the selected account, flagged exactly when that is negative.
   */
  function BalanceAfterPayment(c: Content): (row: DetailRow)
    ensures row.value + c.paymentAmount == c.selectedAccount.balance
    ensures row.isWarning <==> row.value < 0.0
  {
    DetailRow(c.selectedAccount.balance - c.paymentAmount, AccountHasInsufficientFunds(c))
  }

  /**
   * The warning banner and the confirm button. The banner is shown exactly
   * when the remaining balance would be negative; confirm is disabled when
   * it is shown or a payment is being processed, so an enabled confirm
   * means an affordable amount and no payment in flight.
   */
  function ConfirmSection(c: Content, isProcessing: bool): (a: ConfirmArea)
    ensures a.showsWarning <==> BalanceAfterPayment(c).value < 0.0
    ensures a.confirmDisabled <==> a.showsWarning || isProcessing
    ensures !a.confirmDisabled ==> c.paymentAmount <= c.selectedAccount.balance && !isProcessing
  {
    var short := AccountHasInsufficientFunds(c);
    ConfirmArea(short, short || isProcessing)
  }

  /**
   * When nothing is being processed, the warning is on screen exactly when
   * the confirm button is disabled; while processing, confirm is never
   * enabled.
   */
  lemma WarningIffConfirmBlocked(c: Content, isProcessing: bool)
    ensures !isProcessing ==> (ConfirmSection(c, isProcessing).showsWarning <==> ConfirmSection(c, isProcessing).confirmDisabled)
    ensures isProcessing ==> ConfirmSection(c, isProcessing).confirmDisabled
  {
  }

  /**
   * The screen's confirm guard, fed the content view's own funds test, is
   * the content view's confirm button: on screen (presented, no success
   * page) and not disabled by the warning or by processing.
   */
  lemma ConfirmGuardIsContentButton(f: PaymentFlow.Flow, c: Content)
    ensures PaymentFlow.ConfirmEnabled(f, AccountHasInsufficientFunds(c))
            <==> f.presented && !f.showSuccess && !ConfirmSection(c, f.isProcessing).confirmDisabled
  {
  }

  /**
   * The content view and its parent screen test funds against different
   * balances: the content view against the selected account (at first the
   * first sample account), the screen against the list's balance. Both start
   * equal, but paying a bill lowers only the list's balance. After one
   * payment of `paid`, the two tests disagree on `bill` exactly when the
   * payment carried the list balance across the bill's amount, in either
   * direction.
   */
  lemma GatesDisagreeAfterPayment(s: BillList.Session, paid: Bill, bill: Bill, firstAccount: Account)
    requires firstAccount.balance == s.accountBalance
    requires exists i :: 0 <= i < |s.bills| && s.bills[i].id == paid.id
    ensures (PaymentFlow.HasInsufficientFunds(BillList.PayBill(s, paid).accountBalance, bill)
             != AccountHasInsufficientFunds(InitialContent(bill, firstAccount)))
            <==> (s.accountBalance - paid.amount < bill.amount <= s.accountBalance
                  || s.accountBalance < bill.amount <= s.accountBalance - paid.amount)
  {
    var i := BillList.FirstIndexOf(s.bills, paid.id).value;
  }
}

=== FILE: payment_flow.dfy ===
/**
 * The payment confirmation screen as a state machine. The screen keeps two
 * flags, `isProcessing` and `showSuccess`; `presented` records whether the
 * screen is still on display. The confirm button starts a task that, after a
 * settlement delay, runs the caller's `onConfirm`, shows the success page
 * and clears `isProcessing`. The delay itself is not modelled: its end is
 * the `SettlementElapsed` event.
 *
 * Calls the screen makes into its surroundings are recorded as effects, in
 * the order they happen.
 */
module PaymentFlow {
  import opened Bills
  import BillList

  /** A call out of the screen: the caller's two closures and the environment's `dismiss`. */
  datatype Effect = OnConfirm | OnDismiss | Dismiss

  datatype Flow = Flow(isProcessing: bool, showSuccess: bool, presented: bool)

  /**
   * What can happen to the screen. `ConfirmTapped` carries whether the
   * content view judged the selected account short of the payment amount,
   * which disables its confirm button.
   */
  datatype Event =
    | ConfirmTapped(fundsShort: bool)
    | SettlementElapsed
    | CancelTapped
    | DoneTapped
    | SwipedDown

  datatype Step = Step(flow: Flow, effects: seq<Effect>)

  /** The screen as it is first presented. */
  const Initial: Flow := Flow(false, false, true)

  /**
   * The screen's own funds test: the list's balance against the bill's full
   * amount, that is, whether paying the whole bill would leave it negative.
   */
  predicate HasInsufficientFunds(accountBalance: real, bill: Bill)
    ensures HasInsufficientFunds(accountBalance, bill) <==> accountBalance - bill.amount < 0.0
  {
    accountBalance < bill.amount
  }

  /**
   * The screen's funds test says exactly whether paying the bill from the
   * list would take the balance below zero.
   */
  lemma InsufficientIffPaymentOverdraws(s: BillList.Session, bill: Bill)
    requires exists i :: 0 <= i < |s.bills| && s.bills[i].id == bill.id
    ensures HasInsufficientFunds(s.accountBalance, bill) <==> BillList.PayBill(s, bill).accountBalance < 0.0
  {
    var i := BillList.FirstIndexOf(s.bills, bill.id).value;
  }

  /** The confirm button is on screen (the success page is not) and enabled. */
  predicate ConfirmEnabled(f: Flow, fundsShort: bool) {
    f.presented && !f.showSuccess && !(fundsShort || f.isProcessing)
  }

  /** The cancel button is in the toolbar (before success) and enabled (not processing). */
  predicate CancelEnabled(f: Flow) {
    f.presented && !f.showSuccess && !f.isProcessing
  }

  /** The Done button exists only on the success page. */
  predicate DoneEnabled(f: Flow) {
    f.presented && f.showSuccess
  }

  /**
   * One event. Disabled or absent controls ignore taps; the settlement task,
   * once started, completes even when the screen has gone. The screen is
   * presented as a full-screen cover, which a swipe cannot dismiss, so a
   * swipe changes nothing whatever `interactiveDismissDisabled` says.
   */
  function Next(f: Flow, e: Event): (s: Step)
    ensures OnConfirm in s.effects ==> e == SettlementElapsed && f.isProcessing
    ensures f.showSuccess ==> s.flow.showSuccess
    ensures s.flow.isProcessing && !f.isProcessing ==> s.effects == [] && e.ConfirmTapped?
    ensures !f.presented ==> !s.flow.presented
    ensures e.ConfirmTapped? && !ConfirmEnabled(f, e.fundsShort) ==> s == Step(f, [])
    ensures e == CancelTapped && CancelEnabled(f) ==> s == Step(f.(presented := false), [OnDismiss, Dismiss])
    ensures e == CancelTapped && !CancelEnabled(f) ==> s == Step(f, [])
    ensures e == SwipedDown ==> s == Step(f, [])
  {
    match e
    case ConfirmTapped(fundsShort) =>
      if ConfirmEnabled(f, fundsShort) then Step(f.(isProcessing := true), []) else Step(f, [])
    case SettlementElapsed =>
      if f.isProcessing then Step(f.(showSuccess := true, isProcessing := false), [OnConfirm])
      else Step(f, [])
    case CancelTapped =>
      if CancelEnabled(f) then Step(f.(presented := false), [OnDismiss, Dismiss]) else Step(f, [])
    case DoneTapped =>
      if DoneEnabled(f) then Step(f.(presented := false), [OnDismiss, Dismiss]) else Step(f, [])
    case SwipedDown =>
      Step(f, [])
  }

  /** Events in order, with all the effects they cause. */
  function Run(f: Flow, events: seq<Event>): (s: Step)
    decreases |events|
  {
    if |events| == 0 then Step(f, [])
    else
      var first := Next(f, events[0]);
      var rest := Run(first.flow, events[1..]);
      Step(rest.flow, first.effects + rest.effects)
  }

  /**
   * Confirming an enabled button raises `isProcessing` and does nothing
   * else: no payment happens until the settlement delay has passed.
   */
  lemma ConfirmOnlyStartsProcessing(f: Flow, fundsShort: bool)
    requires ConfirmEnabled(f, fundsShort)
    ensures Next(f, ConfirmTapped(fundsShort)) == Step(Flow(true, false, true), [])
  {
  }

  /**
   * When the delay ends the caller's `onConfirm` runs once, the success
   * page is shown and processing is over.
   */
  lemma SettlementCompletesPayment(f: Flow)
    requires f.isProcessing
    ensures Next(f, SettlementElapsed).effects == [OnConfirm]
    ensures Next(f, SettlementElapsed).flow.showSuccess
    ensures !Next(f, SettlementElapsed).flow.isProcessing
  {
  }

  /**
   * A tap on Cancel while processing, or once the success page is shown,
   * changes nothing and calls nothing.
   */
  lemma CancelIgnoredWhileProcessingOrDone(f: Flow)
    requires f.isProcessing || f.showSuccess
    ensures Next(f, CancelTapped) == Step(f, [])
  {
  }

  /**
   * On the success page a swipe does nothing; only Done closes the screen,
   * calling `onDismiss` and then `dismiss`.
   */
  lemma OnlyDoneLeavesSuccess(f: Flow)
    requires f.presented && f.showSuccess
    ensures Next(f, SwipedDown) == Step(f, [])
    ensures Next(f, CancelTapped) == Step(f, [])
    ensures Next(f, DoneTapped) == Step(f.(presented := false), [OnDismiss, Dismiss])
  {
  }

  /** The screen is never processing and showing success at once. */
  predicate Consistent(f: Flow) {
    !(f.isProcessing && f.showSuccess)
  }

  /** The one-event case: `onConfirm` is called exactly when the success page appears. */
  lemma StepConfirmCount(f: Flow, e: Event)
    requires Consistent(f)
    ensures Consistent(Next(f, e).flow)
    ensures multiset(Next(f, e).effects)[OnConfirm] + (if f.showSuccess then 1 else 0)
            == (if Next(f, e).flow.showSuccess then 1 else 0)
  {
    match e
    case ConfirmTapped(_) =>
    case SettlementElapsed =>
    case CancelTapped =>
      assert multiset([OnDismiss, Dismiss])[OnConfirm] == 0;
    case DoneTapped =>
      assert multiset([OnDismiss, Dismiss])[OnConfirm] == 0;
    case SwipedDown =>
  }

  /**
   * Over any run from a consistent state, the number of `onConfirm` calls is
   * exactly the number of times the success page appeared, and the state
   * stays consistent.
   */
  lemma {:induction false} ConfirmCountMatchesSuccess(f: Flow, events: seq<Event>)
    requires Consistent(f)
    ensures Consistent(Run(f, events).flow)
    ensures multiset(Run(f, events).effects)[OnConfirm] + (if f.showSuccess then 1 else 0)
            == (if Run(f, events).flow.showSuccess then 1 else 0)
    decreases |events|
  {
    if |events| > 0 {
      var first := Next(f, events[0]);
      StepConfirmCount(f, events[0]);
      ConfirmCountMatchesSuccess(first.flow, events[1..]);
      var rest := Run(first.flow, events[1..]);
      assert Run(f, events) == Step(rest.flow, first.effects + rest.effects);
      assert multiset(first.effects + rest.effects)[OnConfirm]
          == multiset(first.effects)[OnConfirm] + multiset(rest.effects)[OnConfirm];
    }
  }

  /**
   * From the first presentation, whatever happens, `onConfirm` (the
   * payment) runs at most once, and exactly once when the flow reaches the
   * success page.
   */
  lemma PaymentRunsAtMostOnce(events: seq<Event>)
    ensures multiset(Run(Initial, events).effects)[OnConfirm] <= 1
    ensures Run(Initial, events).flow.showSuccess <==> multiset(Run(Initial, events).effects)[OnConfirm] == 1
  {
    ConfirmCountMatchesSuccess(Initial, events);
  }
}

=== FILE: scenarios.dfy ===
/**
 * Concrete checks on the app's sample data: the six sample bills, the
 * electricity bill walked through the amount dial and paid, and a payment
 * after which the two funds tests of the confirmation screen disagree.
 */
module Scenarios {
  import opened Bills
  import BillList
  import CircularPicker
  import AmountPicker
  import PaymentFlow
  import PaymentContent

  /**
   * Of the sample bills only the streaming service is paid, and the five
   * unpaid ones add up to 2382.49.
   */
  lemma SampleBillsOwe(now: Date, ids: seq<BillId>)
    requires |ids| == 6
    ensures SampleBills(now, ids)[5].paid && SampleBills(now, ids)[5].payee == "Streaming Service"
    ensures forall i :: 0 <= i < 5 ==> !SampleBills(now, ids)[i].paid
    ensures BillList.SumOfUnpaid(SampleBills(now, ids)) == 2382.49
  {
    var bills := SampleBills(now, ids);
    forall k | 0 <= k < 6
      ensures BillList.SumOfUnpaid(bills[..k + 1])
              == BillList.SumOfUnpaid(bills[..k]) + (if bills[k].paid then 0.0 else bills[k].amount)
    {
      assert bills[..k + 1] == bills[..k] + [bills[k]];
      BillList.SumOfUnpaidAppend(bills[..k], bills[k]);
    }
    assert BillList.SumOfUnpaid(bills[..0]) == 0.0;
    assert BillList.SumOfUnpaid(bills[..5]) == 142.50 + 79.99 + 65.00 + 1850.00 + 245.00;
    assert bills[..6] == bills;
  }

  /**
   * The electricity bill (142.50, minimum due one eighth of it, 17.8125) on
   * the dial: dragging to the top from the initial minimum-due position
   * stays at the minimum due; from the full amount it stays at the full
   * amount; a quarter turn selects a quarter of the bill; and paying it
   * from a balance of 200 leaves 57.50.
   */
  lemma ElectricBillWalkthrough(now: Date, ids: seq<BillId>)
    requires |ids| == 6
    ensures var bill := SampleBills(now, ids)[0];
            var range := AmountPicker.DialRange(bill);
            && bill.minimumDueAmount == 17.8125
            && CircularPicker.UpdateAmount(range, bill.minimumDueAmount, -90.0) == 17.8125
            && CircularPicker.UpdateAmount(range, bill.amount, -90.0) == 142.50
            && CircularPicker.UpdateAmount(range, bill.minimumDueAmount, 0.0) == 35.625
    ensures var bill := SampleBills(now, ids)[0];
            var after := BillList.PayBill(BillList.Session(SampleBills(now, ids), 200.0), bill);
            after.accountBalance == 57.50 && after.bills[0].paid
  {
    var bill := SampleBills(now, ids)[0];
    var range := AmountPicker.DialRange(bill);
    assert CircularPicker.MinimumDueAngle(range) == 45.0;
    assert CircularPicker.ProgressAngle(range, bill.minimumDueAmount) == 45.0;
    assert CircularPicker.ProgressAngle(range, bill.amount) == 360.0;
  }

  /**
   * The list starts at 5432.50, as does the first sample account. After a
   * 5400.00 bill, larger than any sample bill, is paid, the list balance is
   * 32.50 but the account still shows 5432.50. So for a 142.50 bill the
   * screen reports insufficient funds while its content view, testing the
   * account, does not.
   */
  lemma GatesDivergeAfterPayment(now: Date)
    ensures var big := MakeBill(1, "Roofing Contractor", 5400.00, now, Other);
            var electric := MakeBill(2, "Electric Company", 142.50, now, Utilities);
            var checking := Account(10, "Checking Account", Checking, 5432.50);
            var after := BillList.PayBill(BillList.Session([big, electric], 5432.50), big);
            && after.accountBalance == 32.50
            && PaymentFlow.HasInsufficientFunds(after.accountBalance, electric)
            && !PaymentContent.AccountHasInsufficientFunds(PaymentContent.InitialContent(electric, checking))
  {
  }
}

=== FILE: sort_picker.dfy ===
/**
 * The sort menu: a choice among the sort options plus a direction. Choosing
 * the option already in force reverses the direction; choosing another one
 * switches to it in ascending order. A separate button reverses the
 * direction alone.
 */
module SortPicker {

  datatype SortOption = DueDate | Payee | Amount | Category | PaidStatus

  datatype SortMenu = SortMenu(sortOption: SortOption, ascending: bool)

  /** A tap on one of the option entries. */
  function Choose(m: SortMenu, option: SortOption): (r: SortMenu)
    ensures r.sortOption == option
    ensures m.sortOption == option ==> r.ascending == !m.ascending
    ensures m.sortOption != option ==> r.ascending
  {
    if m.sortOption == option then m.(ascending := !m.ascending)
    else SortMenu(option, true)
  }

  /** A tap on the direction button. */
  function ToggleDirection(m: SortMenu): (r: SortMenu)
    ensures r.sortOption == m.sortOption
    ensures r.ascending != m.ascending
  {
    m.(ascending := !m.ascending)
  }

  /**
   * Choosing the selected option is the same as the direction button, and
   * doing it twice restores the menu.
   */
  lemma ChooseSelectedTwiceRestores(m: SortMenu)
    ensures Choose(m, m.sortOption) == ToggleDirection(m)
    ensures Choose(Choose(m, m.sortOption), m.sortOption) == m
  {
  }

  /**
   * Choosing a new option and then the same one again leaves that option
   * in force, in descending order, whatever the menu held before.
   */
  lemma ChooseNewThenAgain(m: SortMenu, option: SortOption)
    requires m.sortOption != option
    ensures Choose(Choose(m, option), option) == SortMenu(option, false)
  {
  }
}
